=== FILE: README.md ===
# Manga reader and browser: chapter list, navigation and search composition

This project models the two pieces of pure logic in a React manga reader and
browser, and proves properties of them in Dafny.

**The reader page** (`src/pages/Page.tsx`). The page loads a series catalog
that may be sparse. From it and the requested chapter it derives:
- `totalChapters`: the larger of the catalog's highest chapter number and the
  requested chapter.
- A dense chapter picker that runs from `floor(totalChapters)` down to 1.
  Each slot is the first catalog entry for that chapter, or a "missing"
  placeholder.
- The previous and next chapter targets.
- A progress percentage.

**The browse page** (`src/pages/Browse.tsx`):
- It composes a search text from:
  - the free-text query;
  - the selected genre's name (`buildSearchQuery`);
  - the selected status.
- It builds the ordered request parameters.
- It merges result pages: page 1 replaces the list, later pages append.
- It toggles the single genre and status selections.
- It keeps at most 24 genres.

JavaScript numbers are `Option<real>`: `None` is NaN, and `Some(x)` is a
finite value held exactly. `parseFloat` is `JsNumber.ParseFloat`. It skips
leading white space, reads the longest decimal-literal prefix and ignores the
rest. `Number.prototype.toString` on integers is `JsNumber.FormatInt`.
`JsNumber.ParseFormatInt` proves that `parseFloat` reads back every integer `toString` prints.

`ChapterList` and `Reader` take the chapter-id parser as a parameter (`parse`).
Their claims about chapter numbers assume only that the parser reads back
what `FormatInt` prints (`ReadsBackIntegers`).
`Reader.ParseFloatReadsBackIntegers` proves that `ParseFloat` has this
property. Every result therefore holds for the page's own parser.

Modules:
- `Wrappers`: `Option`.
- `JsNumber`: `parseFloat` and integer `toString`.
- `ChapterList`: `totalChapters` and the dense slot list.
- `Navigation`: next/previous targets and progress.
- `Reader`: the page's state, its update when the catalog arrives, and one render.
- `ReaderExamples`: two worked scenarios with the page's own `parseFloat`.
- `BrowseQuery`: `buildSearchQuery`.
- `BrowseSearch`: parameters and page merging in `performMainSearch`.
- `BrowseFilters`: toggles and genre truncation.

## Model

| member | source | states |
|---|---|---|
| JsNumber.ParseFloat | src/pages/Page.tsx:121 | `parseFloat` is NaN exactly when the text, after leading white space, does not start with an optional sign and a digit or a point and a digit |
| JsNumber.TrimStartRemovesWhiteSpace | src/pages/Page.tsx:121 | `parseFloat` drops exactly the leading white space: what it skips is white space, and what it keeps does not start with any |
| JsNumber.ScanLiteralFindsNumber | src/pages/Page.tsx:121 | a number is read exactly when the text starts with an optional sign and then a digit, or a point and a digit; the literal read is well formed |
| JsNumber.FormatNat | src/pages/Page.tsx:136 | `toString` of a non-negative integer is a non-empty digit string whose value is that integer, with no leading zero |
| JsNumber.FormatInt | src/pages/Page.tsx:136 | `toString` of an integer starts with a digit exactly for non-negative numbers and with `-` exactly for negative ones |
| JsNumber.ParseDigits | src/pages/Page.tsx:135 | `parseFloat` of a plain digit string is its decimal value |
| JsNumber.ParseFormatInt | src/pages/Page.tsx:135-136 | `parseFloat(i.toString())` is `i` for every integer, so a placeholder's id reads back as its chapter |
| ChapterList.CatalogMax | src/pages/Page.tsx:120-122 | `apiMax` is 0 for an empty catalog; otherwise it bounds every entry's number (unparseable ids count as 0) and equals one of them |
| ChapterList.JsMax | src/pages/Page.tsx:123 | `Math.max` is NaN if either side is NaN; otherwise it is at least both and equal to one |
| ChapterList.TotalChapters | src/pages/Page.tsx:120-123 | `totalChapters` is NaN exactly when the requested chapter is; otherwise it is at least the requested chapter and every catalog number, and equals one of them (or is 0 for an empty catalog) |
| ChapterList.FirstWithNumber | src/pages/Page.tsx:135 | `find` with `===` returns the first entry whose id parses to exactly that number, and nothing when none does |
| ChapterList.SlotForIsFirstMatch | src/pages/Page.tsx:135-136 | slot `i` holds a catalog entry exactly when some entry is numbered `i`, and then it is the first such entry, unchanged; otherwise it is a placeholder with id `i.toString()` |
| ChapterList.Slots | src/pages/Page.tsx:134-137 | the loop produces `start` slots when `start >= 1` and none otherwise |
| ChapterList.SlotsAt | src/pages/Page.tsx:134-136 | slot `j` is the slot for chapter `start - j` |
| ChapterList.JsFloor | src/pages/Page.tsx:133 | `Math.floor` keeps NaN and otherwise gives the integer `n` with `n <= x < n + 1` |
| ChapterList.FullChapterList | src/pages/Page.tsx:132-137 | a NaN start gives an empty list; otherwise the list has `start` entries (none when `start < 1`), and entry `j` is the first catalog entry numbered `start - j` or a placeholder for it |
| ChapterList.SlotForNumber | src/pages/Page.tsx:135-136 | every slot's id parses back to the chapter it was built for |
| ChapterList.CountdownPosition | src/pages/Page.tsx:134-136 | in a list counting down from `start`, chapter `m` of 1..`start` sits at index `start - m` |
| ChapterList.SlotsNumbers | src/pages/Page.tsx:134-136 | the slot list counts down from `start`: slot `j` stands for chapter `start - j` |
| ChapterList.SlotsStrictlyDescending | src/pages/Page.tsx:134-136 | chapter numbers strictly decrease along the list, so no chapter appears twice |
| ChapterList.SlotsBounds | src/pages/Page.tsx:134-136 | a non-empty list has `start` slots, begins at chapter `start` and ends at chapter 1 |
| ChapterList.ListedEntriesAreIntegral | src/pages/Page.tsx:134-135 | a listed entry comes from the catalog and parses to a whole chapter between 1 and `start`; fractional and unparseable ids never appear |
| ChapterList.EmptyCatalogAllMissing | src/pages/Page.tsx:134-136 | with an empty catalog every slot is a placeholder carrying its own number |
| Navigation.NextChapter | src/pages/Page.tsx:140 | there is a next chapter exactly when `current + 1 <= total`, with NaN on either side giving none, and it is `current + 1` |
| Navigation.PrevChapter | src/pages/Page.tsx:141 | there is a previous chapter exactly when `current - 1 >= 1`, and it is `current - 1` |
| Navigation.ProgressPercent | src/pages/Page.tsx:142 | progress is defined exactly for non-NaN operands and a non-zero total, and then `progress * total == current * 100` |
| Navigation.ProgressWithinBounds | src/pages/Page.tsx:142 | for `0 < current <= total`, progress lies in (0, 100] and is 100 exactly at the last chapter |
| Navigation.ProgressMonotone | src/pages/Page.tsx:142 | for a fixed positive total, progress strictly increases with the chapter number |
| Navigation.NavigationBoundaries | src/pages/Page.tsx:140-141 | chapter 1 has no previous chapter and the last chapter has no next one; any offered target lies in [1, total] |
| Reader.ParseFloatReadsBackIntegers | src/pages/Page.tsx:135-136 | `parseFloat` reads back every integer `toString` prints, so every lemma stated for a general parser holds for the page |
| Reader.LoadCatalog | src/pages/Page.tsx:105-123 | without both route parameters, or when a request fails, the state is unchanged; otherwise the catalog (`[]` when absent) is stored with `totalChapters` set to the larger of its highest chapter and the requested chapter (NaN when the latter does not parse) |
| Reader.CurrentNumber | src/pages/Page.tsx:139 | `currentNum` is the parsed route chapter, and chapter 1 when the parameter is missing or empty |
| Reader.StartNum | src/pages/Page.tsx:133 | `startNum` is the floor of `totalChapters` when that is truthy, and otherwise the floor of the parsed route chapter (NaN stays NaN) |
| Reader.Render | src/pages/Page.tsx:132-142 | one render's picker holds the slots for chapters `|chapters|` down to 1, whose count is the floor of a truthy total of at least 1; a next target never exceeds the total and a previous one is at least 1 |
| Reader.LoadedSlots | src/pages/Page.tsx:123-137 | after a load with a total of at least 1, the picker is the slot list from `floor(totalChapters)` down to 1 |
| Reader.LoadedListEmpty | src/pages/Page.tsx:123-134 | after a load with a NaN total or a total below 1, the picker is empty, the fallback to the route chapter included |
| Reader.LoadedListShape | src/pages/Page.tsx:123-136 | after a load, the picker counts down from `floor(totalChapters)`: it has that many slots (none below 1), and slot `j` stands for chapter `floor(totalChapters) - j` |
| Reader.RequestedChapterListed | src/pages/Page.tsx:123-136 | a whole requested chapter of at least 1 is always in the loaded picker, even when the catalog lacks it, in the slot `SlotFor` picks |
| Reader.LoadedView | src/pages/Page.tsx:132-142 | the loaded view is the slot list with the next, previous and progress values for the requested chapter and the total |
| Reader.NavigationTargetsInCountdown | src/pages/Page.tsx:134-141 | for a whole chapter within the total, the next and previous targets are chapters of the list counting down from `floor(total)` |
| Reader.LoadedNavigationTargets | src/pages/Page.tsx:133-141 | after a load, a whole chapter's next and previous targets are entries of the picker, so navigation never leaves the list |
| Reader.LoadedProgress | src/pages/Page.tsx:123-142 | after a load, a chapter numbered above 0 shows progress in (0, 100], because the total is never below the requested chapter |
| Reader.InitialRenderAllMissing | src/pages/Page.tsx:133-136 | before the catalog arrives, the picker runs from the floor of the route chapter down to 1, and every slot is a missing placeholder |
| ReaderExamples.SparseSlots | src/pages/Page.tsx:132-137 | over the catalog [3, 1] the slots for 5 down to 1 are: missing 5, missing 4, the catalog's 3, missing 2, the catalog's 1 |
| ReaderExamples.SparseCatalogScenario | src/pages/Page.tsx:120-142 | with catalog chapters 3 and 1 and chapter 5 requested, the picker is that list, there is no next chapter, the previous is 4, and progress is 100 |
| ReaderExamples.EmptyCatalogScenario | src/pages/Page.tsx:120-142 | with an empty catalog and chapter 1 requested, the picker is one missing chapter 1, there is no next or previous chapter, and progress is 100 |
| BrowseQuery.FindGenre | src/pages/Browse.tsx:93 | `find` returns a genre exactly when one has that `mal_id`, and then the first such genre |
| BrowseQuery.AppendPart | src/pages/Browse.tsx:94-96 | appending keeps the accumulated query as a prefix; it adds one space before the part only when the query is non-empty |
| BrowseQuery.Compose | src/pages/Browse.tsx:90-98 | the search text is a prefix of the composed text, a chosen status is its suffix, and the result is empty exactly when every part is empty |
| BrowseQuery.BuildSearchQuery | src/pages/Browse.tsx:90-98 | the search text is a prefix of the query, a chosen status ends it, and the query is empty exactly when no part is non-empty |
| BrowseQuery.AppendPartIsJoin | src/pages/Browse.tsx:94-96 | appending one part to the join of some parts gives the join of the extended list, with leading empty parts dropped |
| BrowseQuery.WithGenreIsJoin | src/pages/Browse.tsx:91-94 | the text after the genre step is the join of the search text and the genre name |
| BrowseQuery.ComposeIsJoin | src/pages/Browse.tsx:90-98 | composing is joining the parts in order with single spaces, leading empty parts dropped |
| BrowseQuery.QueryIsJoinOfParts | src/pages/Browse.tsx:90-98 | `buildSearchQuery` is the space-join of search text, genre name and status in that order |
| BrowseQuery.GenrePartIsFirstMatch | src/pages/Browse.tsx:92-94 | a genre name is appended exactly when the selection is truthy (not null, not 0) and some genre has that id, and it is the first such genre's name |
| BrowseQuery.FullQuery | src/pages/Browse.tsx:90-98 | with every filter set and non-empty search text, the query reads "text genre status" |
| BrowseQuery.EmptyFiltersEmptyQuery | src/pages/Browse.tsx:90-97 | no search text, no genre and no status compose the empty query |
| BrowseSearch.SearchTerm | src/pages/Browse.tsx:104-105 | the term is empty exactly when the passed query and every filter part are empty; a non-empty passed query wins, and otherwise the term is the space-join of search text, genre name and status |
| BrowseSearch.ParamList | src/pages/Browse.tsx:104-109 | `q` comes first and only for a non-empty term; the list ends with `limit=24`, `page`, `order_by` and `sort=desc` in that order |
| BrowseSearch.FixedParamsReadBack | src/pages/Browse.tsx:106-109 | the four fixed parameters read back as sent, and they hold no `q` |
| BrowseSearch.ParamListReadBack | src/pages/Browse.tsx:104-109 | each parameter reads back as sent, and `q` is absent exactly when the term is empty |
| BrowseSearch.SearchParamsReadBack | src/pages/Browse.tsx:104-109 | for page `pageNum`, the `page` parameter parses back to `pageNum`, and the others read back as sent |
| BrowseSearch.SearchQueryParam | src/pages/Browse.tsx:105-106 | the request carries `q` unless both the passed and the composed query are empty; a passed query is sent as is, otherwise the composed one |
| BrowseSearch.StartSearch | src/pages/Browse.tsx:101 | a first-page request sets `loading`; nothing else changes |
| BrowseSearch.MergePage | src/pages/Browse.tsx:114 | page 1 replaces the list; any other page keeps the previous list as a prefix, followed by the new results |
| BrowseSearch.FinishSearch | src/pages/Browse.tsx:110-117 | a failed request or a body without `data` leaves the list and `hasMore` alone; otherwise the page is merged and `hasMore` follows `has_next_page` (kept when `pagination` is missing); loading always ends |
| BrowseSearch.SearchPages | src/pages/Browse.tsx:121-132 | running the requests for successive pages changes nothing when there are none and always ends with loading off |
| BrowseSearch.FailedPagesKeepResults | src/pages/Browse.tsx:110-117 | requests that all fail leave the list and `hasMore` unchanged |
| BrowseSearch.LaterPagesKeepList | src/pages/Browse.tsx:114 | from page 2 on, whatever the responses, the list shown so far stays a prefix: later pages never drop results |
| BrowseSearch.LaterPagesAppend | src/pages/Browse.tsx:114-115 | continuing from page 2 on appends every page's results in order, and `hasMore` follows the last page |
| BrowseSearch.PagesConcatenate | src/pages/Browse.tsx:114-115 | loading pages 1 to n shows exactly their results concatenated in page order, whatever was listed before |
| BrowseFilters.KeepGenres | src/pages/Browse.tsx:86 | a response without `data` keeps the list; otherwise the kept list is a prefix of the response of length `min(24, n)` |
| BrowseFilters.KeptGenresAreFirst | src/pages/Browse.tsx:86 | at most 24 genres are kept, and they are the first ones returned, in order; a list of at most 24 is kept whole |
| BrowseFilters.KeepGenresIdempotent | src/pages/Browse.tsx:86 | truncating an already-kept list changes nothing |
| BrowseFilters.ToggleGenre | src/pages/Browse.tsx:204 | clicking a genre clears the selection exactly when that genre was selected, and otherwise selects it |
| BrowseFilters.ToggleStatus | src/pages/Browse.tsx:219 | clicking a status clears the selection exactly when that status was selected, and otherwise selects it |
| BrowseFilters.ToggleGenreTwice | src/pages/Browse.tsx:204 | two clicks on the same genre restore the selection exactly when nothing or that genre was selected; from another genre they end with none |
| BrowseFilters.ToggleStatusTwice | src/pages/Browse.tsx:219 | two clicks on the same status restore the selection exactly when none or that status was selected; from another status they end with none |
| BrowseFilters.ToggleGenreKeepsListed | src/pages/Browse.tsx:201-204 | the selected genre is always the id of a shown genre |
| BrowseFilters.ToggleStatusKeepsValid | src/pages/Browse.tsx:216-219 | the selected status is always empty or one of `publishing`, `complete`, `on_hiatus` |
| BrowseFilters.ToggledGenreInQuery | src/pages/Browse.tsx:204 | selecting a shown genre with a non-zero id makes the query's genre part the name of the first listed genre with that id; when no other listed genre shares the id, that is the clicked genre's own name |

## Left out

- The network requests, their JSON decoding and the async ordering of effects are left out. The catalog, the route parameters and the API responses are inputs. A failed or throwing request is the `FetchFailed`/`SearchFailed` case.
- The image request, the page title, `loading` on the reader page and the scroll reset are left out. They do not feed the picker or navigation, except that the image request (src/pages/Page.tsx:109-111) runs first in the same `try`: when it throws, the catalog is not loaded either, which the `FetchFailed` case covers.
- The filter-change effect that resets to page 1 is left out, and so is the IntersectionObserver that requests the next page. Both are event-driven. Their effect on the list is covered by `BrowseSearch.SearchPages` run from page 1.
- Debounce timers, ripples, styles, JSX and routing are left out. They are UI only.
- `src/types/tierList.ts` is left out; it declares types only.
- Query-string encoding by `URLSearchParams.toString` is left out. Parameters are kept as an ordered list of key/value pairs, and `get` is modelled as first-match lookup.
- JsNumber.ParseFloat: the `Infinity` literal is not modelled; it gives NaN here, where JavaScript gives an infinity. IEEE-754 rounding is not modelled either; values are exact reals.
- JsNumber.FormatInt: covers integers only, and is exact only where JavaScript prints plain digits, below 10^21. Fractional `toString` is not modelled.
- ChapterList.Slots: the model always builds a finite list, but the page's loop never ends, and the page never renders, when `startNum` is Infinity (route chapter "Infinity" or "1e400") or from 2^53 up wherever `i - 1` rounds back to `i` (for example "1e16" or "1e17"). The model instead gives an empty list for "Infinity", which `JsNumber.ParseFloat` reads as NaN, and a list of that many placeholders for the others.
- Navigation.NextChapter: yields the next chapter as a number. The page turns it into a string with `toString`, and for fractional chapters that string form is not modelled.
- Navigation.PrevChapter: yields the previous chapter as a number, not its `toString` string.
- Navigation.ProgressPercent: a zero total gives `None`, where JavaScript gives NaN or an infinity. This model follows the code, which has no fallback such as 0%; the percentage is simply absent there.
- ChapterList.TotalChapters: takes the parser as a parameter. The facts that need to read a placeholder's id back assume `ReadsBackIntegers`, which `Reader.ParseFloatReadsBackIntegers` proves for `parseFloat`.
- BrowseSearch.FinishSearch: takes `has_next_page` as a boolean. A missing or non-boolean value inside a present `pagination` object is not modelled.
- Genre ids are integers. A NaN `mal_id` is not modelled, since the API assigns whole ids.

=== FILE: browse_filters.dfy ===
/**
  The Browse page's filter panel (src/pages/Browse.tsx): the genre list kept
  from the genre API, and the genre and status buttons, each of which toggles
  a single selection.
 */
module BrowseFilters {
  import opened Wrappers
  import opened BrowseQuery

  /** The most genres the panel keeps. */
  const MaxGenres := 24

  /** The status buttons, in display order. */
  const StatusOptions: seq<string> := ["publishing", "complete", "on_hiatus"]

  /** `if (data.data) setGenres(data.data.slice(0, 24))`: a response without
      `data` leaves the list as it was. */
  function KeepGenres(current: seq<Genre>, data: Option<seq<Genre>>): (kept: seq<Genre>)
    ensures data.None? ==> kept == current
    ensures data.Some? ==> |kept| == if |data.value| < MaxGenres then |data.value| else MaxGenres
    ensures data.Some? ==> kept <= data.value
  {
    match data
    case None => current
    case Some(list) => if |list| <= MaxGenres then list else list[..MaxGenres]
  }

  /** At most 24 genres are kept, they are the first ones returned in their
      order, and a list of at most 24 is kept whole. */
  lemma KeptGenresAreFirst(current: seq<Genre>, list: seq<Genre>)
    ensures |KeepGenres(current, Some(list))| <= MaxGenres
    ensures forall k :: 0 <= k < |KeepGenres(current, Some(list))| ==> KeepGenres(current, Some(list))[k] == list[k]
    ensures |list| <= MaxGenres ==> KeepGenres(current, Some(list)) == list
  {
  }

  /** Keeping what was kept changes nothing. */
  lemma KeepGenresIdempotent(current: seq<Genre>, list: seq<Genre>)
    ensures var kept := KeepGenres(current, Some(list));
            KeepGenres(kept, Some(kept)) == kept
  {
  }

  /** `setSelectedGenre(selectedGenre === id ? null : id)`. */
  function ToggleGenre(selected: Option<int>, id: int): (r: Option<int>)
    ensures r.None? <==> selected == Some(id)
    ensures r.Some? ==> r.value == id
  {
    if selected == Some(id) then None else Some(id)
  }

  /** `setSelectedStatus(selectedStatus === s ? '' : s)`. */
  function ToggleStatus(selected: string, status: string): (r: string)
    requires status in StatusOptions
    ensures r == "" <==> selected == status
    ensures r != "" ==> r == status
  {
    if selected == status then "" else status
  }

  /** Clicking the same genre twice restores the selection exactly when nothing
      or that genre was selected; from another genre it ends with none. */
  lemma ToggleGenreTwice(selected: Option<int>, id: int)
    ensures ToggleGenre(ToggleGenre(selected, id), id) == selected <==> selected.None? || selected == Some(id)
    ensures selected.Some? && selected != Some(id) ==> ToggleGenre(ToggleGenre(selected, id), id).None?
  {
  }

  /** Clicking the same status twice restores the selection exactly when none
      or that status was selected; from another status it ends with none. */
  lemma ToggleStatusTwice(selected: string, status: string)
    requires status in StatusOptions
    ensures ToggleStatus(ToggleStatus(selected, status), status) == selected <==> selected == "" || selected == status
    ensures selected != "" && selected != status ==> ToggleStatus(ToggleStatus(selected, status), status) == ""
  {
  }

  /** The selected genre is always one whose button was shown. */
  lemma ToggleGenreKeepsListed(selected: Option<int>, g: Genre, genres: seq<Genre>)
    requires g in genres
    requires selected.Some? ==> exists k :: 0 <= k < |genres| && genres[k].malId == selected.value
    ensures var r := ToggleGenre(selected, g.malId);
            r.Some? ==> exists k :: 0 <= k < |genres| && genres[k].malId == r.value
  {
  }

  /** The selected status is always empty or one of the three options. */
  lemma ToggleStatusKeepsValid(selected: string, status: string)
    requires status in StatusOptions
    requires selected == "" || selected in StatusOptions
    ensures var r := ToggleStatus(selected, status);
            r == "" || r in StatusOptions
  {
  }

  /** Selecting a shown genre with a non-zero id puts into the query the name
      of the first listed genre with that id; when no other listed genre
      shares the id, that is the clicked genre's own name. */
  lemma ToggledGenreInQuery(f: Filters, genres: seq<Genre>, g: Genre)
    requires g in genres && g.malId != 0 && f.selectedGenre != Some(g.malId)
    ensures FindGenre(genres, g.malId).Some?
    ensures var f' := f.(selectedGenre := ToggleGenre(f.selectedGenre, g.malId));
            && GenrePart(f', genres) == Some(FindGenre(genres, g.malId).value.name)
            && FindGenre(genres, g.malId).value.name in QueryParts(f', genres)
    ensures (forall k :: 0 <= k < |genres| && genres[k].malId == g.malId ==> genres[k] == g) ==>
              var f' := f.(selectedGenre := ToggleGenre(f.selectedGenre, g.malId));
              GenrePart(f', genres) == Some(g.name)
  {
    var k :| 0 <= k < |genres| && genres[k] == g;
    var found := FindGenre(genres, g.malId);
    assert found.Some?;
    var j :| 0 <= j < |genres| && genres[j] == found.value && found.value.malId == g.malId;
  }
}

=== FILE: browse_query.dfy ===
/**
  The Browse page's composed search text (`buildSearchQuery`,
  src/pages/Browse.tsx): the free-text query, then the name of the selected
  genre, then the selected status, joined left to right by single spaces,
  where a part is joined only when the text accumulated so far is non-empty.
 */
module BrowseQuery {
  import opened Wrappers

  /** A genre as the genre list API returns it. */
  datatype Genre = Genre(malId: int, name: string)

  /** The filter state the composed query reads. `selectedGenre` is the
      `number | null` state; `selectedStatus` is `''` when none is chosen. */
  datatype Filters = Filters(searchQuery: string, selectedGenre: Option<int>, selectedStatus: string)

  /** `if (selectedGenre)`: null and 0 are falsy. */
  predicate GenreChosen(selected: Option<int>) {
    selected.Some? && selected.value != 0
  }

  /** `genres.find(g => g.mal_id === id)`: the first genre with that id. */
  function FindGenre(genres: seq<Genre>, id: int): (r: Option<Genre>)
    ensures r.Some? <==> exists k :: 0 <= k < |genres| && genres[k].malId == id
    ensures r.Some? ==> exists k :: && 0 <= k < |genres| && genres[k] == r.value && r.value.malId == id
                                    && forall m :: 0 <= m < k ==> genres[m].malId != id
  {
    if |genres| == 0 then None
    else if genres[0].malId == id then Some(genres[0])
    else
      var r := FindGenre(genres[1..], id);
      assert forall k :: 1 <= k < |genres| ==> genres[k] == genres[1..][k - 1];
      if r.Some? then
        var k :| 0 <= k < |genres[1..]| && genres[1..][k] == r.value && r.value.malId == id
                 && forall m :: 0 <= m < k ==> genres[1..][m].malId != id;
        assert genres[k + 1] == r.value;
        r
      else
        r
  }

  /** `query ? `${query} ${part}` : part`. */
  function AppendPart(query: string, part: string): (r: string)
    ensures query <= r
    ensures query == "" ==> r == part
    ensures query != "" ==> r == query + " " + part
  {
    if query == "" then part else query + " " + part
  }

  /** The genre name that is appended, if any: a truthy selection that some
      listed genre carries. */
  function GenrePart(f: Filters, genres: seq<Genre>): Option<string> {
    if GenreChosen(f.selectedGenre) then
      match FindGenre(genres, f.selectedGenre.value)
      case Some(g) => Some(g.name)
      case None => None
    else None
  }

  /** The left-to-right composition of the search text, an optional genre
      name and a status (`''` for none). */
  function Compose(searchQuery: string, genre: Option<string>, status: string): (q: string)
    ensures searchQuery <= q
    ensures status != "" ==> |status| <= |q| && q[|q| - |status|..] == status
    ensures q == "" <==> searchQuery == "" && genre.GetOr("") == "" && status == ""
  {
    var withGenre := match genre
                     case Some(name) => AppendPart(searchQuery, name)
                     case None => searchQuery;
    if status != "" then AppendPart(withGenre, status) else withGenre
  }

  /** `buildSearchQuery()`. */
  function BuildSearchQuery(f: Filters, genres: seq<Genre>): (q: string)
    ensures f.searchQuery <= q
    ensures f.selectedStatus != "" ==> |f.selectedStatus| <= |q| && q[|q| - |f.selectedStatus|..] == f.selectedStatus
    ensures q == "" <==> f.searchQuery == "" && GenrePart(f, genres).GetOr("") == "" && f.selectedStatus == ""
  {
    Compose(f.searchQuery, GenrePart(f, genres), f.selectedStatus)
  }

  /** The parts in the order they are appended: the search text, the genre
      name when there is one, the status when one is chosen. */
  function Parts(searchQuery: string, genre: Option<string>, status: string): seq<string> {
    [searchQuery]
    + (match genre case Some(name) => [name] case None => [])
    + (if status != "" then [status] else [])
  }

  /** The parts of the query the filters compose. */
  function QueryParts(f: Filters, genres: seq<Genre>): seq<string> {
    Parts(f.searchQuery, GenrePart(f, genres), f.selectedStatus)
  }

  /** `parts` with its leading empty strings removed (see `DropLeadingEmptyIsSuffix`). */
  function DropLeadingEmpty(parts: seq<string>): seq<string> {
    if |parts| == 0 then []
    else if parts[0] == "" then DropLeadingEmpty(parts[1..])
    else parts
  }

  /** What is dropped is all empty, and what is kept is the suffix that
      starts with the first non-empty part. */
  lemma {:induction false} DropLeadingEmptyIsSuffix(parts: seq<string>)
    ensures |DropLeadingEmpty(parts)| <= |parts|
    ensures |DropLeadingEmpty(parts)| == 0 || DropLeadingEmpty(parts)[0] != ""
    ensures DropLeadingEmpty(parts) == parts[|parts| - |DropLeadingEmpty(parts)|..]
    ensures forall k :: 0 <= k < |parts| - |DropLeadingEmpty(parts)| ==> parts[k] == ""
  {
    if |parts| > 0 && parts[0] == "" {
      var r := DropLeadingEmpty(parts[1..]);
      DropLeadingEmptyIsSuffix(parts[1..]);
      assert forall k :: 1 <= k < |parts| ==> parts[k] == parts[1..][k - 1];
      assert parts[1..][|parts| - 1 - |r|..] == parts[|parts| - |r|..];
    }
  }

  /** `parts.join(sep)`. */
  function Intercalate(sep: string, parts: seq<string>): string
    decreases |parts|
  {
    if |parts| == 0 then ""
    else if |parts| == 1 then parts[0]
    else parts[0] + sep + Intercalate(sep, parts[1..])
  }

  /** Joining with a non-empty first part gives a non-empty result. */
  lemma {:induction false} IntercalateNonEmpty(sep: string, parts: seq<string>)
    requires |parts| > 0 && parts[0] != ""
    ensures Intercalate(sep, parts) != ""
    ensures parts[0] <= Intercalate(sep, parts)
  {
    if |parts| > 1 {
      var tail := Intercalate(sep, parts[1..]);
      assert Intercalate(sep, parts) == parts[0] + (sep + tail);
    }
  }

  /** Joining one more part onto a non-empty list adds the separator and the part. */
  lemma {:induction false} IntercalateSnoc(sep: string, parts: seq<string>, p: string)
    requires |parts| > 0
    ensures Intercalate(sep, parts + [p]) == Intercalate(sep, parts) + sep + p
    decreases |parts|
  {
    if |parts| > 1 {
      assert (parts + [p])[1..] == parts[1..] + [p];
      IntercalateSnoc(sep, parts[1..], p);
    } else {
      assert (parts + [p])[1..] == [p];
    }
  }

  /** Appending one part to the left-to-right join is the join of the extended
      list, leading empty parts dropped. */
  lemma {:induction false} AppendPartIsJoin(parts: seq<string>, p: string)
    ensures AppendPart(Intercalate(" ", DropLeadingEmpty(parts)), p)
            == Intercalate(" ", DropLeadingEmpty(parts + [p]))
    decreases |parts|
  {
    if |parts| == 0 {
      assert parts + [p] == [p];
    } else if parts[0] == "" {
      assert (parts + [p])[1..] == parts[1..] + [p];
      AppendPartIsJoin(parts[1..], p);
    } else {
      assert DropLeadingEmpty(parts + [p]) == parts + [p];
      IntercalateNonEmpty(" ", parts);
      IntercalateSnoc(" ", parts, p);
    }
  }

  /** The search text alone is its own join. */
  lemma SingleIsJoin(searchQuery: string)
    ensures Intercalate(" ", DropLeadingEmpty([searchQuery])) == searchQuery
  {
    if searchQuery == "" {
      assert [searchQuery][1..] == [];
    }
  }

  /** The search text followed by an optional genre name. */
  function WithGenre(searchQuery: string, genre: Option<string>): seq<string> {
    if genre.Some? then [searchQuery, genre.value] else [searchQuery]
  }

  /** The first step of the composition is the join of its first parts. */
  lemma WithGenreIsJoin(searchQuery: string, genre: Option<string>)
    ensures Compose(searchQuery, genre, "") == Intercalate(" ", DropLeadingEmpty(WithGenre(searchQuery, genre)))
  {
    SingleIsJoin(searchQuery);
    if genre.Some? {
      assert WithGenre(searchQuery, genre) == [searchQuery] + [genre.value];
      AppendPartIsJoin([searchQuery], genre.value);
    }
  }

  /** Composing is joining the parts by single spaces, leading empty parts dropped. */
  lemma ComposeIsJoin(searchQuery: string, genre: Option<string>, status: string)
    ensures Compose(searchQuery, genre, status) == Intercalate(" ", DropLeadingEmpty(Parts(searchQuery, genre, status)))
  {
    var first := WithGenre(searchQuery, genre);
    var q1 := Compose(searchQuery, genre, "");
    WithGenreIsJoin(searchQuery, genre);
    if status != "" {
      AppendPartIsJoin(first, status);
      assert Parts(searchQuery, genre, status) == first + [status];
      assert Compose(searchQuery, genre, status) == AppendPart(q1, status);
    } else {
      assert Parts(searchQuery, genre, status) == first;
    }
  }

  /** The composed query is the space-separated join of its parts in order,
      leading empty parts dropped: genre before status, one space between parts. */
  lemma QueryIsJoinOfParts(f: Filters, genres: seq<Genre>)
    ensures BuildSearchQuery(f, genres) == Intercalate(" ", DropLeadingEmpty(QueryParts(f, genres)))
  {
    ComposeIsJoin(f.searchQuery, GenrePart(f, genres), f.selectedStatus);
  }

  /** A genre name is appended exactly when the selection is truthy and some
      listed genre has that id, and it is the first such genre's name. */
  lemma GenrePartIsFirstMatch(f: Filters, genres: seq<Genre>)
    ensures GenrePart(f, genres).Some? <==>
              GenreChosen(f.selectedGenre) && exists k :: 0 <= k < |genres| && genres[k].malId == f.selectedGenre.value
    ensures GenrePart(f, genres).Some? ==>
              exists k :: && 0 <= k < |genres| && genres[k].malId == f.selectedGenre.value
                          && genres[k].name == GenrePart(f, genres).value
                          && forall m :: 0 <= m < k ==> genres[m].malId != f.selectedGenre.value
  {
  }

  /** With every filter set and a non-empty search text, the query reads
      "text genre status". */
  lemma FullQuery(f: Filters, genres: seq<Genre>, g: Genre)
    requires f.searchQuery != "" && f.selectedStatus != ""
    requires GenreChosen(f.selectedGenre) && FindGenre(genres, f.selectedGenre.value) == Some(g)
    ensures BuildSearchQuery(f, genres) == f.searchQuery + " " + g.name + " " + f.selectedStatus
  {
  }

  /** No search text, no genre and no status compose the empty query. */
  lemma EmptyFiltersEmptyQuery(genres: seq<Genre>, selectedGenre: Option<int>)
    requires !GenreChosen(selectedGenre)
    ensures BuildSearchQuery(Filters("", selectedGenre, ""), genres) == ""
  {
  }
}

=== FILE: browse_search.dfy ===
/**
  The Browse page's main search (`performMainSearch`, src/pages/Browse.tsx):
  the ordered request parameters, and how a response for page `pageNum`
  updates the result list, the `hasMore` flag and the loading flag.
 */
module BrowseSearch {
  import opened Wrappers
  import opened JsNumber
  import opened BrowseQuery

  /** One `URLSearchParams` entry. */
  datatype Param = Param(key: string, value: string)

  /** A manga as the search API returns it; only its identity matters here. */
  datatype Manga = Manga(malId: int, title: string)

  /** How the search request ended: the request or its JSON decoding threw, or
      a body whose `data` and `pagination` fields may each be absent. */
  datatype SearchResponse =
    | SearchFailed
    | SearchBody(data: Option<seq<Manga>>, pagination: Option<bool>)

  /** The result state: `mangaList`, `hasMore` and `loading`. */
  datatype Results = Results(mangaList: seq<Manga>, hasMore: bool, loading: bool)

  /** `query || buildSearchQuery()`: the composed query only stands in for an
      empty passed query. The term is empty exactly when both are, and a
      composed term is the space-join of the filter parts. */
  function SearchTerm(query: string, f: Filters, genres: seq<Genre>): (term: string)
    ensures query != "" ==> term == query
    ensures query == "" ==> term == BuildSearchQuery(f, genres)
    ensures term == "" <==> query == "" && f.searchQuery == "" && GenrePart(f, genres).GetOr("") == ""
                            && f.selectedStatus == ""
    ensures query == "" ==> term == Intercalate(" ", DropLeadingEmpty(QueryParts(f, genres)))
  {
    QueryIsJoinOfParts(f, genres);
    if query != "" then query else BuildSearchQuery(f, genres)
  }

  /** The four parameters every request carries, in order. */
  function FixedParams(pageText: string, sort: string): seq<Param> {
    [Param("limit", "24"), Param("page", pageText), Param("order_by", sort), Param("sort", "desc")]
  }

  /** The parameters in the order they are appended, the page number already
      written out as `pageText`. */
  function ParamList(term: string, pageText: string, sort: string): (ps: seq<Param>)
    ensures |ps| == if term == "" then 4 else 5
    ensures term != "" ==> ps[0] == Param("q", term)
    ensures forall i :: 0 < i < |ps| ==> ps[i].key != "q"
    ensures term == "" ==> forall i :: 0 <= i < |ps| ==> ps[i].key != "q"
    ensures ps[|ps| - 4..] == [Param("limit", "24"), Param("page", pageText),
                               Param("order_by", sort), Param("sort", "desc")]
  {
    var fixed := FixedParams(pageText, sort);
    var ps := (if term != "" then [Param("q", term)] else []) + fixed;
    assert forall i :: 0 <= i < |fixed| ==> fixed[i].key != "q";
    assert ps[|ps| - 4..] == fixed;
    ps
  }

  /** The request parameters for page `pageNum` (`pageNum.toString()`). */
  function SearchParams(term: string, pageNum: int, sort: string): seq<Param> {
    ParamList(term, FormatInt(pageNum), sort)
  }

  /** `URLSearchParams.get(key)`: the value of the first entry with that key. */
  function Lookup(ps: seq<Param>, key: string): Option<string> {
    if |ps| == 0 then None
    else if ps[0].key == key then Some(ps[0].value)
    else Lookup(ps[1..], key)
  }

  /** `get` finds nothing when no entry has the key. */
  lemma {:induction false} LookupAbsent(ps: seq<Param>, key: string)
    requires forall i :: 0 <= i < |ps| ==> ps[i].key != key
    ensures Lookup(ps, key).None?
  {
    if |ps| > 0 {
      assert forall i :: 0 <= i < |ps| - 1 ==> ps[1..][i] == ps[i + 1];
      LookupAbsent(ps[1..], key);
    }
  }

  /** The first entry with the key is the one `get` finds. */
  lemma {:induction false} LookupFindsFirst(ps: seq<Param>, key: string, i: nat)
    requires i < |ps| && ps[i].key == key
    requires forall m :: 0 <= m < i ==> ps[m].key != key
    ensures Lookup(ps, key) == Some(ps[i].value)
  {
    if i > 0 {
      assert forall m :: 0 <= m < i - 1 ==> ps[1..][m] == ps[m + 1];
      LookupFindsFirst(ps[1..], key, i - 1);
    }
  }

  /** The fixed parameters read back as sent. */
  lemma FixedParamsReadBack(pageText: string, sort: string)
    ensures var fixed := FixedParams(pageText, sort);
            && Lookup(fixed, "q").None?
            && Lookup(fixed, "limit") == Some("24")
            && Lookup(fixed, "page") == Some(pageText)
            && Lookup(fixed, "order_by") == Some(sort)
            && Lookup(fixed, "sort") == Some("desc")
  {
    var fixed := FixedParams(pageText, sort);
    LookupAbsent(fixed, "q");
    LookupFindsFirst(fixed, "limit", 0);
    LookupFindsFirst(fixed, "page", 1);
    LookupFindsFirst(fixed, "order_by", 2);
    LookupFindsFirst(fixed, "sort", 3);
  }

  /** `URLSearchParams.get` reads back each parameter as appended: the search
      term only when there is one, the fixed limit and direction, the sort
      field and the page. */
  lemma ParamListReadBack(term: string, pageText: string, sort: string)
    ensures var ps := ParamList(term, pageText, sort);
            && Lookup(ps, "q") == (if term == "" then None else Some(term))
            && Lookup(ps, "limit") == Some("24")
            && Lookup(ps, "page") == Some(pageText)
            && Lookup(ps, "order_by") == Some(sort)
            && Lookup(ps, "sort") == Some("desc")
  {
    var ps := ParamList(term, pageText, sort);
    var fixed := FixedParams(pageText, sort);
    FixedParamsReadBack(pageText, sort);
    if term != "" {
      assert ps == [Param("q", term)] + fixed;
      assert ps[1..] == fixed;
    } else {
      assert ps == fixed;
    }
  }

  /** For the request for page `pageNum`, `URLSearchParams.get` reads back the
      search term (only when there is one), the fixed limit and direction, the
      sort field, and a page parameter that parses back to `pageNum`. */
  lemma SearchParamsReadBack(term: string, pageNum: int, sort: string)
    ensures var ps := SearchParams(term, pageNum, sort);
            && Lookup(ps, "q") == (if term == "" then None else Some(term))
            && Lookup(ps, "limit") == Some("24")
            && Lookup(ps, "page").Some?
            && ParseFloat(Lookup(ps, "page").value) == Some(pageNum as real)
            && Lookup(ps, "order_by") == Some(sort)
            && Lookup(ps, "sort") == Some("desc")
  {
    ParamListReadBack(term, FormatInt(pageNum), sort);
    ParseFormatInt(pageNum);
  }

  /** The request carries a `q` parameter unless both the passed query and the
      composed query are empty; a passed query wins over the filters. */
  lemma SearchQueryParam(query: string, f: Filters, genres: seq<Genre>, pageNum: int, sort: string)
    ensures var q := Lookup(SearchParams(SearchTerm(query, f, genres), pageNum, sort), "q");
            && (q.None? <==> query == "" && BuildSearchQuery(f, genres) == "")
            && (query != "" ==> q == Some(query))
            && (query == "" && q.Some? ==> q.value == BuildSearchQuery(f, genres))
  {
    SearchParamsReadBack(SearchTerm(query, f, genres), pageNum, sort);
  }

  /** `setLoading(true)` when a first page is requested. */
  function StartSearch(r: Results, pageNum: int): (r': Results)
    ensures r'.mangaList == r.mangaList && r'.hasMore == r.hasMore
    ensures pageNum == 1 ==> r'.loading
    ensures pageNum != 1 ==> r'.loading == r.loading
  {
    if pageNum == 1 then r.(loading := true) else r
  }

  /** `pageNum === 1 ? data.data : [...prev, ...data.data]`. */
  function MergePage(prev: seq<Manga>, data: seq<Manga>, pageNum: int): (list: seq<Manga>)
    ensures pageNum == 1 ==> list == data
    ensures pageNum != 1 ==> |list| == |prev| + |data| && prev <= list && list[|prev|..] == data
  {
    if pageNum == 1 then data else prev + data
  }

  /** The state once the request for `pageNum` completes. A missing `data`
      leaves the list alone; a missing `pagination` throws after the list was
      merged, so only `hasMore` is kept; loading always ends. */
  function FinishSearch(r: Results, pageNum: int, resp: SearchResponse): (r': Results)
    ensures !r'.loading
    ensures resp.SearchFailed? || (resp.SearchBody? && resp.data.None?) ==>
              r'.mangaList == r.mangaList && r'.hasMore == r.hasMore
    ensures resp.SearchBody? && resp.data.Some? ==>
              && (pageNum == 1 ==> r'.mangaList == resp.data.value)
              && (pageNum != 1 ==> r'.mangaList == r.mangaList + resp.data.value)
              && r'.hasMore == resp.pagination.GetOr(r.hasMore)
  {
    match resp
    case SearchFailed => r.(loading := false)
    case SearchBody(None, _) => r.(loading := false)
    case SearchBody(Some(data), pagination) =>
      var list := MergePage(r.mangaList, data, pageNum);
      match pagination
      case Some(hasNext) => Results(list, hasNext, false)
      case None => Results(list, r.hasMore, false)
  }

  /** One complete request for `pageNum`. */
  function Search(r: Results, pageNum: int, resp: SearchResponse): Results {
    FinishSearch(StartSearch(r, pageNum), pageNum, resp)
  }

  /** The requests for pages `firstPage`, `firstPage + 1`, ... answered in
      turn by `resps`. Loading ends after any request (see `FailedPagesKeepResults`
      and `LaterPagesKeepList` for the list). */
  function SearchPages(r: Results, firstPage: int, resps: seq<SearchResponse>): (r': Results)
    ensures |resps| == 0 ==> r' == r
    ensures |resps| > 0 ==> !r'.loading
    decreases |resps|
  {
    if |resps| == 0 then r
    else SearchPages(Search(r, firstPage, resps[0]), firstPage + 1, resps[1..])
  }

  /** Requests that all fail leave the list and `hasMore` as they were. */
  lemma {:induction false} FailedPagesKeepResults(r: Results, firstPage: int, resps: seq<SearchResponse>)
    requires forall i :: 0 <= i < |resps| ==> resps[i].SearchFailed?
    ensures SearchPages(r, firstPage, resps).mangaList == r.mangaList
    ensures SearchPages(r, firstPage, resps).hasMore == r.hasMore
    decreases |resps|
  {
    if |resps| > 0 {
      assert resps[0].SearchFailed?;
      assert forall i :: 0 <= i < |resps| - 1 ==> resps[1..][i] == resps[i + 1];
      FailedPagesKeepResults(Search(r, firstPage, resps[0]), firstPage + 1, resps[1..]);
    }
  }

  /** From page 2 on, whatever the responses, the list shown so far stays a
      prefix of the list: later pages never drop results. */
  lemma {:induction false} LaterPagesKeepList(r: Results, firstPage: int, resps: seq<SearchResponse>)
    requires firstPage >= 2
    ensures r.mangaList <= SearchPages(r, firstPage, resps).mangaList
    decreases |resps|
  {
    if |resps| > 0 {
      var r1 := Search(r, firstPage, resps[0]);
      assert r.mangaList <= r1.mangaList;
      LaterPagesKeepList(r1, firstPage + 1, resps[1..]);
    }
  }

  /** A response that carries results and pagination. */
  predicate Complete(resp: SearchResponse) {
    resp.SearchBody? && resp.data.Some? && resp.pagination.Some?
  }

  /** The results of a sequence of complete responses, in order. */
  function Concat(resps: seq<SearchResponse>): seq<Manga>
    requires forall i :: 0 <= i < |resps| ==> Complete(resps[i])
  {
    if |resps| == 0 then []
    else
      assert Complete(resps[0]);
      assert forall i :: 0 <= i < |resps| - 1 ==> resps[1..][i] == resps[i + 1];
      resps[0].data.value + Concat(resps[1..])
  }

  /** A complete response for a page after the first appends its results and
      sets `hasMore` from its pagination. */
  lemma CompleteLaterPage(r: Results, pageNum: int, resp: SearchResponse)
    requires pageNum != 1 && Complete(resp)
    ensures Search(r, pageNum, resp) == Results(r.mangaList + resp.data.value, resp.pagination.value, false)
  {
  }

  /** `Concat` unfolded once. */
  lemma ConcatCons(resps: seq<SearchResponse>)
    requires |resps| > 0
    requires forall i :: 0 <= i < |resps| ==> Complete(resps[i])
    ensures Complete(resps[0])
    ensures forall i :: 0 <= i < |resps[1..]| ==> Complete(resps[1..][i])
    ensures Concat(resps) == resps[0].data.value + Concat(resps[1..])
  {
    assert Complete(resps[0]);
    assert forall i :: 0 <= i < |resps| - 1 ==> resps[1..][i] == resps[i + 1];
  }

  /** Continuing from page 2 on appends every page's results in order, and
      `hasMore` follows the last page. */
  lemma {:induction false} LaterPagesAppend(r: Results, firstPage: int, resps: seq<SearchResponse>)
    requires firstPage >= 2
    requires forall i :: 0 <= i < |resps| ==> Complete(resps[i])
    ensures SearchPages(r, firstPage, resps).mangaList == r.mangaList + Concat(resps)
    ensures |resps| > 0 ==> SearchPages(r, firstPage, resps).hasMore == resps[|resps| - 1].pagination.value
    ensures SearchPages(r, firstPage, resps).loading == (|resps| == 0 && r.loading)
    decreases |resps|
  {
    if |resps| > 0 {
      var first := resps[0];
      var rest := resps[1..];
      ConcatCons(resps);
      CompleteLaterPage(r, firstPage, first);
      var r1 := Search(r, firstPage, first);
      LaterPagesAppend(r1, firstPage + 1, rest);
      var last := SearchPages(r1, firstPage + 1, rest);
      assert SearchPages(r, firstPage, resps) == last;
      assert last.mangaList == (r.mangaList + first.data.value) + Concat(rest);
      assert (r.mangaList + first.data.value) + Concat(rest) == r.mangaList + Concat(resps);
      if |rest| > 0 {
        assert rest[|rest| - 1] == resps[|resps| - 1];
      }
    }
  }

  /** Loading pages 1 to n with complete responses shows exactly their results
      concatenated in page order, whatever was listed before. */
  lemma PagesConcatenate(r: Results, resps: seq<SearchResponse>)
    requires |resps| > 0
    requires forall i :: 0 <= i < |resps| ==> Complete(resps[i])
    ensures SearchPages(r, 1, resps).mangaList == Concat(resps)
    ensures SearchPages(r, 1, resps).hasMore == resps[|resps| - 1].pagination.value
    ensures !SearchPages(r, 1, resps).loading
  {
    var r1 := Search(r, 1, resps[0]);
    LaterPagesAppend(r1, 2, resps[1..]);
    if |resps| > 1 {
      assert resps[1..][|resps[1..]| - 1] == resps[|resps| - 1];
    }
  }
}

=== FILE: chapter_list.dfy ===
/**
  The reader's chapter picker (src/pages/Page.tsx): the highest known chapter
  number, computed once the series catalog has arrived, and the dense list of
  chapter slots that runs from that number down to chapter 1, each slot holding
  the catalog's entry for that chapter or a "missing" placeholder.

  Every chapter id is read with a number parser `parse` (the page uses
  `parseFloat`; module Reader supplies `JsNumber.ParseFloat`). The properties
  that need to read a placeholder's id back assume only that the parser
  inverts `toString` on integers (`ReadsBackIntegers`).
 */
module ChapterList {
  import opened Wrappers
  import opened JsNumber

  /** A chapter-id parser: `None` is NaN. */
  type Parser = string -> Option<real>

  /** A chapter as the catalog API lists it; further fields travel along unread. */
  datatype CatalogEntry = CatalogEntry(chapterId: string, title: string)

  /** One row of the chapter picker: a catalog entry, or the placeholder
      `{ chapterId, isMissing: true }` synthesized for a gap. */
  datatype Slot = Listed(entry: CatalogEntry) | Placeholder(id: string) {

    function ChapterId(): string {
      match this
      case Listed(e) => e.chapterId
      case Placeholder(id) => id
    }

    predicate IsMissing() {
      Placeholder?
    }
  }

  /** The parser reads back what `toString` prints for an integer. */
  ghost predicate ReadsBackIntegers(parse: Parser) {
    forall n: int :: parse(FormatInt(n)) == Some(n as real)
  }

  /** `parseFloat(c.chapterId) || 0`: an unparseable id counts as chapter 0. */
  function NumberOrZero(parse: Parser, e: CatalogEntry): real {
    parse(e.chapterId).GetOr(0.0)
  }

  function Max(a: real, b: real): real {
    if a >= b then a else b
  }

  /** The catalog maximum `apiMax`: 0 for an empty catalog, otherwise
      `Math.max` over every entry's number (unparseable ids as 0). */
  function CatalogMax(parse: Parser, chList: seq<CatalogEntry>): (m: real)
    ensures |chList| == 0 ==> m == 0.0
    ensures forall k :: 0 <= k < |chList| ==> NumberOrZero(parse, chList[k]) <= m
    ensures |chList| > 0 ==> exists k :: 0 <= k < |chList| && NumberOrZero(parse, chList[k]) == m
  {
    if |chList| <= 1 then
      if |chList| == 0 then 0.0 else NumberOrZero(parse, chList[0])
    else
      var rest := chList[1..];
      assert forall k :: 1 <= k < |chList| ==> chList[k] == rest[k - 1];
      Max(NumberOrZero(parse, chList[0]), CatalogMax(parse, rest))
  }

  /** `Math.max` on two JavaScript numbers: NaN if either argument is NaN. */
  function JsMax(a: Option<real>, b: Option<real>): (r: Option<real>)
    ensures r.Some? <==> a.Some? && b.Some?
    ensures r.Some? ==> r.value >= a.value && r.value >= b.value
    ensures r.Some? ==> r.value == a.value || r.value == b.value
  {
    if a.Some? && b.Some? then Some(Max(a.value, b.value)) else None
  }

  /** `totalChapters` as set after the catalog arrives: the larger of the
      catalog maximum and the requested chapter, NaN if the latter does not parse. */
  function TotalChapters(parse: Parser, chList: seq<CatalogEntry>, chapterId: string): (t: Option<real>)
    ensures t.Some? <==> parse(chapterId).Some?
    ensures t.Some? ==> t.value >= parse(chapterId).value
    ensures t.Some? ==> forall k :: 0 <= k < |chList| ==> NumberOrZero(parse, chList[k]) <= t.value
    ensures t.Some? ==> || t.value == parse(chapterId).value
                        || (exists k :: 0 <= k < |chList| && NumberOrZero(parse, chList[k]) == t.value)
                        || (|chList| == 0 && t.value == 0.0)
    ensures t.Some? && |chList| == 0 ==> t.value == Max(0.0, parse(chapterId).value)
  {
    JsMax(Some(CatalogMax(parse, chList)), parse(chapterId))
  }

  /** Index of the first catalog entry whose id parses to exactly `x`
      (`Array.prototype.find` with `===`, which NaN never satisfies). */
  function FirstWithNumber(parse: Parser, catalog: seq<CatalogEntry>, x: real): (r: Option<nat>)
    ensures r.Some? ==> r.value < |catalog| && parse(catalog[r.value].chapterId) == Some(x)
    ensures r.Some? ==> forall k :: 0 <= k < r.value ==> parse(catalog[k].chapterId) != Some(x)
    ensures r.None? ==> forall k :: 0 <= k < |catalog| ==> parse(catalog[k].chapterId) != Some(x)
  {
    if |catalog| == 0 then None
    else if parse(catalog[0].chapterId) == Some(x) then Some(0)
    else
      match FirstWithNumber(parse, catalog[1..], x)
      case None => None
      case Some(k) => Some(k + 1)
  }

  /** The slot for integer chapter `i`: the first catalog entry numbered `i`,
      or a placeholder whose id is `i.toString()` (see `SlotForIsFirstMatch`). */
  function SlotFor(parse: Parser, catalog: seq<CatalogEntry>, i: int): Slot {
    match FirstWithNumber(parse, catalog, i as real)
    case Some(k) => Listed(catalog[k])
    case None => Placeholder(FormatInt(i))
  }

  /** Slot `i` holds a catalog entry exactly when some entry is numbered `i`,
      and then it is the first such entry in catalog order, unchanged; otherwise
      it is a placeholder carrying `i.toString()`. */
  lemma SlotForIsFirstMatch(parse: Parser, catalog: seq<CatalogEntry>, i: int)
    ensures SlotFor(parse, catalog, i).Placeholder? ==> SlotFor(parse, catalog, i).id == FormatInt(i)
    ensures SlotFor(parse, catalog, i).Listed? ==> parse(SlotFor(parse, catalog, i).entry.chapterId) == Some(i as real)
    ensures SlotFor(parse, catalog, i).Listed? <==>
              exists k :: 0 <= k < |catalog| && parse(catalog[k].chapterId) == Some(i as real)
    ensures SlotFor(parse, catalog, i).Listed? ==>
              exists k :: && 0 <= k < |catalog| && SlotFor(parse, catalog, i).entry == catalog[k]
                          && parse(catalog[k].chapterId) == Some(i as real)
                          && forall m :: 0 <= m < k ==> parse(catalog[m].chapterId) != Some(i as real)
  {
    match FirstWithNumber(parse, catalog, i as real)
    case Some(k) =>
    case None =>
  }

  /** The loop `for (i = start; i >= 1; i--)`: one slot per chapter from
      `start` down to 1, empty when `start < 1` (see `SlotsAt`). */
  function Slots(parse: Parser, catalog: seq<CatalogEntry>, start: int): (list: seq<Slot>)
    ensures |list| == if start >= 1 then start else 0
    decreases start
  {
    if start < 1 then [] else [SlotFor(parse, catalog, start)] + Slots(parse, catalog, start - 1)
  }

  /** Slot `j` is the slot for chapter `start - j`. */
  lemma {:induction false} SlotsAt(parse: Parser, catalog: seq<CatalogEntry>, start: int)
    ensures forall j :: 0 <= j < |Slots(parse, catalog, start)| ==>
              Slots(parse, catalog, start)[j] == SlotFor(parse, catalog, start - j)
    decreases start
  {
    if start >= 1 {
      SlotsAt(parse, catalog, start - 1);
      var rest := Slots(parse, catalog, start - 1);
      var list := Slots(parse, catalog, start);
      assert list == [SlotFor(parse, catalog, start)] + rest;
      forall j | 1 <= j < |list|
        ensures list[j] == SlotFor(parse, catalog, start - j)
      {
        assert list[j] == rest[j - 1];
      }
    }
  }

  /** `n` is the floor of `x`. */
  predicate IsFloor(n: int, x: real) {
    n as real <= x < n as real + 1.0
  }

  /** Only one integer is the floor of a real. */
  lemma FloorIsUnique(n: int, x: real)
    requires IsFloor(n, x)
    ensures x.Floor == n
  {
  }

  /** `Math.floor` on a JavaScript number (NaN stays NaN). */
  function JsFloor(x: Option<real>): (r: Option<int>)
    ensures r.Some? <==> x.Some?
    ensures r.Some? ==> IsFloor(r.value, x.value)
  {
    match x
    case None => None
    case Some(v) => Some(v.Floor)
  }

  /** `fullChapterList` for a floored start number: a NaN start runs the loop
      zero times; otherwise there is one slot per chapter from the start down
      to 1, in that order. */
  function FullChapterList(parse: Parser, catalog: seq<CatalogEntry>, startNum: Option<int>): (list: seq<Slot>)
    ensures startNum.None? ==> list == []
    ensures startNum.Some? ==> |list| == if startNum.value >= 1 then startNum.value else 0
    ensures startNum.Some? ==> forall j :: 0 <= j < |list| ==> list[j] == SlotFor(parse, catalog, startNum.value - j)
  {
    match startNum
    case None => []
    case Some(n) =>
      SlotsAt(parse, catalog, n);
      Slots(parse, catalog, n)
  }

  /** The number a slot stands for, read back from its id. */
  function SlotNumber(parse: Parser, s: Slot): Option<real> {
    parse(s.ChapterId())
  }

  /** Every slot's id parses back to the chapter number it was built for. */
  lemma SlotForNumber(parse: Parser, catalog: seq<CatalogEntry>, i: int)
    requires ReadsBackIntegers(parse)
    ensures SlotNumber(parse, SlotFor(parse, catalog, i)) == Some(i as real)
  {
    SlotForIsFirstMatch(parse, catalog, i);
    if SlotFor(parse, catalog, i).Placeholder? {
      assert parse(FormatInt(i)) == Some(i as real);
    }
  }

  /** `list` stands for the chapters `start`, `start - 1`, ..., 1 in that order. */
  predicate CountsDownFrom(parse: Parser, list: seq<Slot>, start: int) {
    && |list| == (if start >= 1 then start else 0)
    && forall j :: 0 <= j < |list| ==> SlotNumber(parse, list[j]) == Some((start - j) as real)
  }

  /** In such a list, chapter `m` of the range 1..`start` sits at index `start - m`. */
  lemma CountdownPosition(parse: Parser, list: seq<Slot>, start: int, m: int)
    requires CountsDownFrom(parse, list, start)
    requires 1 <= m <= start
    ensures 0 <= start - m < |list|
    ensures SlotNumber(parse, list[start - m]) == Some(m as real)
  {
  }

  /** Slot `j` of the list stands for chapter `start - j`. */
  lemma SlotsNumbers(parse: Parser, catalog: seq<CatalogEntry>, start: int)
    requires ReadsBackIntegers(parse)
    ensures CountsDownFrom(parse, Slots(parse, catalog, start), start)
  {
    var list := Slots(parse, catalog, start);
    SlotsAt(parse, catalog, start);
    forall j | 0 <= j < |list|
      ensures SlotNumber(parse, list[j]) == Some((start - j) as real)
    {
      SlotForNumber(parse, catalog, start - j);
    }
  }

  /** The list is strictly descending in chapter number, so no chapter appears twice. */
  lemma SlotsStrictlyDescending(parse: Parser, catalog: seq<CatalogEntry>, start: int)
    requires ReadsBackIntegers(parse)
    ensures forall j, k :: 0 <= j < k < |Slots(parse, catalog, start)| ==>
              && SlotNumber(parse, Slots(parse, catalog, start)[j]).Some?
              && SlotNumber(parse, Slots(parse, catalog, start)[k]).Some?
              && SlotNumber(parse, Slots(parse, catalog, start)[j]).value
                 > SlotNumber(parse, Slots(parse, catalog, start)[k]).value
  {
    SlotsNumbers(parse, catalog, start);
  }

  /** A non-empty list starts at chapter `start` and ends at chapter 1. */
  lemma SlotsBounds(parse: Parser, catalog: seq<CatalogEntry>, start: int)
    requires ReadsBackIntegers(parse)
    requires start >= 1
    ensures |Slots(parse, catalog, start)| == start
    ensures SlotNumber(parse, Slots(parse, catalog, start)[0]) == Some(start as real)
    ensures SlotNumber(parse, Slots(parse, catalog, start)[start - 1]) == Some(1.0)
  {
    SlotsNumbers(parse, catalog, start);
  }

  /** Only catalog entries numbered by an integer between 1 and `start` appear:
      fractional, unparseable and out-of-range ids never do. */
  lemma ListedEntriesAreIntegral(parse: Parser, catalog: seq<CatalogEntry>, start: int)
    ensures forall j :: 0 <= j < |Slots(parse, catalog, start)| && Slots(parse, catalog, start)[j].Listed? ==>
              && Slots(parse, catalog, start)[j].entry in catalog
              && parse(Slots(parse, catalog, start)[j].entry.chapterId) == Some((start - j) as real)
              && 1 <= start - j <= start
  {
    var list := Slots(parse, catalog, start);
    SlotsAt(parse, catalog, start);
    forall j | 0 <= j < |list| && list[j].Listed?
      ensures list[j].entry in catalog
    {
      SlotForIsFirstMatch(parse, catalog, start - j);
    }
  }

  /** With an empty catalog every slot is a placeholder carrying its own number. */
  lemma EmptyCatalogAllMissing(parse: Parser, start: int)
    ensures forall j :: 0 <= j < |Slots(parse, [], start)| ==>
              Slots(parse, [], start)[j] == Placeholder(FormatInt(start - j))
  {
    SlotsAt(parse, [], start);
  }
}

=== FILE: js_number.dfy ===
/**
  The two JavaScript number primitives the reader relies on: `parseFloat`
  applied to a chapter identifier, and `Number.prototype.toString` applied to
  an integer chapter or page number.

  A JavaScript number is modelled as `Option<real>`: `None` stands for NaN and
  `Some(x)` for the finite value `x`, kept exact (no IEEE-754 rounding).
 */
module JsNumber {
  import opened Wrappers

  predicate IsDigit(c: char) {
    '0' <= c <= '9'
  }

  predicate AllDigits(s: string) {
    forall i :: 0 <= i < |s| ==> IsDigit(s[i])
  }

  function DigitValue(c: char): nat {
    if IsDigit(c) then c as int - '0' as int else 0
  }

  function DigitChar(d: nat): (c: char)
    requires d < 10
    ensures IsDigit(c) && DigitValue(c) == d
  {
    ('0' as int + d) as char
  }

  /** The value of a string of decimal digits, most significant first. */
  function DigitsValue(s: string): nat {
    if |s| == 0 then 0 else DigitsValue(s[..|s| - 1]) * 10 + DigitValue(s[|s| - 1])
  }

  function Pow10(n: nat): (p: nat)
    ensures p >= 1
  {
    if n == 0 then 1 else 10 * Pow10(n - 1)
  }

  /** `m * 10^e` for a possibly negative exponent `e`. */
  function Scale(m: real, e: int): real {
    if e >= 0 then m * Pow10(e) as real else m / Pow10(-e) as real
  }

  /** The ECMAScript StrWhiteSpaceChar set: WhiteSpace (TAB, VT, FF, ZWNBSP and
      the Unicode space separators) and LineTerminator (LF, CR, LS, PS). */
  predicate IsStrWhiteSpace(c: char) {
    var n := c as int;
    || n == 0x09 || n == 0x0A || n == 0x0B || n == 0x0C || n == 0x0D
    || n == 0x20 || n == 0xA0 || n == 0x1680 || 0x2000 <= n <= 0x200A
    || n == 0x2028 || n == 0x2029 || n == 0x202F || n == 0x205F
    || n == 0x3000 || n == 0xFEFF
  }

  /** `s` with its leading white space removed (see `TrimStartRemovesWhiteSpace`). */
  function TrimStart(s: string): (t: string)
    ensures |t| <= |s|
  {
    if |s| > 0 && IsStrWhiteSpace(s[0]) then TrimStart(s[1..]) else s
  }

  /** `TrimStart` drops exactly the white space at the front: what it removes is
      all white space, and what it keeps is a suffix that does not start with any. */
  lemma {:induction false} TrimStartRemovesWhiteSpace(s: string)
    ensures TrimStart(s) == s[|s| - |TrimStart(s)|..]
    ensures |TrimStart(s)| == 0 || !IsStrWhiteSpace(TrimStart(s)[0])
    ensures forall i :: 0 <= i < |s| - |TrimStart(s)| ==> IsStrWhiteSpace(s[i])
  {
    if |s| > 0 && IsStrWhiteSpace(s[0]) {
      TrimStartRemovesWhiteSpace(s[1..]);
      assert s[1..][|s| - 1 - |TrimStart(s)|..] == s[|s| - |TrimStart(s)|..];
      forall i | 1 <= i < |s| - |TrimStart(s)|
        ensures IsStrWhiteSpace(s[i])
      {
        assert s[i] == s[1..][i - 1];
      }
    }
  }

  /** The end of the longest run of digits in `s` that starts at `i`. */
  function DigitRun(s: string, i: nat): (j: nat)
    requires i <= |s|
    ensures i <= j <= |s|
    ensures j == |s| || !IsDigit(s[j])
    decreases |s| - i
  {
    if i < |s| && IsDigit(s[i]) then DigitRun(s, i + 1) else i
  }

  /** Everything `DigitRun` skips over is a digit. */
  lemma {:induction false} DigitRunDigits(s: string, i: nat)
    requires i <= |s|
    ensures AllDigits(s[i..DigitRun(s, i)])
    decreases |s| - i
  {
    if i < |s| && IsDigit(s[i]) {
      var j := DigitRun(s, i + 1);
      DigitRunDigits(s, i + 1);
      assert s[i..j] == [s[i]] + s[i + 1..j];
    }
  }

  /** The exponent part `e[+-]digits` of a decimal literal starting at `k`, or 0
      when there is none (an `e` without digits after it is not part of the number). */
  function ExponentAt(t: string, k: nat): int
    requires k <= |t|
  {
    if k < |t| && (t[k] == 'e' || t[k] == 'E') then
      var signed := k + 1 < |t| && (t[k + 1] == '+' || t[k + 1] == '-');
      var d0 := if signed then k + 2 else k + 1;
      var d1 := DigitRun(t, d0);
      if d1 == d0 then 0
      else if signed && t[k + 1] == '-' then 0 - DigitsValue(t[d0..d1]) as int
      else DigitsValue(t[d0..d1])
    else
      0
  }

  /** The pieces of a StrDecimalLiteral: sign, integer digits, fraction digits and exponent. */
  datatype Literal = Literal(negative: bool, intDigits: string, fracDigits: string, exponent: int)

  predicate ValidLiteral(l: Literal) {
    AllDigits(l.intDigits) && AllDigits(l.fracDigits) && |l.intDigits| + |l.fracDigits| >= 1
  }

  /** Whether `t` begins with a number: an optional sign followed by a digit,
      or by a point and a digit. */
  predicate StartsNumeric(t: string) {
    var u := if |t| > 0 && (t[0] == '+' || t[0] == '-') then t[1..] else t;
    (|u| > 0 && IsDigit(u[0])) || (|u| > 1 && u[0] == '.' && IsDigit(u[1]))
  }

  /** The longest prefix of `t` that is a decimal literal, if any. */
  function ScanLiteral(t: string): Option<Literal> {
    var signed := |t| > 0 && (t[0] == '+' || t[0] == '-');
    var i0 := if signed then 1 else 0;
    var i1 := DigitRun(t, i0);
    var hasDot := i1 < |t| && t[i1] == '.';
    var f0 := if hasDot then i1 + 1 else i1;
    var f1 := DigitRun(t, f0);
    if i1 == i0 && f1 == f0 then None
    else Some(Literal(signed && t[0] == '-', t[i0..i1], t[f0..f1], ExponentAt(t, f1)))
  }

  function LiteralValue(l: Literal): real {
    var mantissa := DigitsValue(l.intDigits) as real
                    + DigitsValue(l.fracDigits) as real / Pow10(|l.fracDigits|) as real;
    var magnitude := Scale(mantissa, l.exponent);
    if l.negative then -magnitude else magnitude
  }

  /** JavaScript `parseFloat`: skip leading white space, then read the longest
      decimal-literal prefix; text after it is ignored; no number at all is NaN. */
  function ParseFloat(s: string): (r: Option<real>)
    ensures r.None? <==> !StartsNumeric(TrimStart(s))
  {
    ScanLiteralFindsNumber(TrimStart(s));
    match ScanLiteral(TrimStart(s))
    case None => None
    case Some(l) => Some(LiteralValue(l))
  }

  /** A scanned literal is well formed, and one is found exactly when the text
      starts with a sign-optional digit or point-digit. */
  lemma ScanLiteralFindsNumber(t: string)
    ensures ScanLiteral(t).Some? <==> StartsNumeric(t)
    ensures ScanLiteral(t).Some? ==> ValidLiteral(ScanLiteral(t).value)
  {
    var signed := |t| > 0 && (t[0] == '+' || t[0] == '-');
    var i0 := if signed then 1 else 0;
    var i1 := DigitRun(t, i0);
    var hasDot := i1 < |t| && t[i1] == '.';
    var f0 := if hasDot then i1 + 1 else i1;
    DigitRunDigits(t, i0);
    DigitRunDigits(t, f0);
  }

  /** `n.toString()` for a non-negative integer: its decimal digits, no leading zero. */
  function FormatNat(n: nat): (s: string)
    ensures |s| >= 1 && AllDigits(s)
    ensures DigitsValue(s) == n
    ensures s[0] == '0' ==> n == 0
  {
    if n < 10 then
      [DigitChar(n)]
    else
      var s := FormatNat(n / 10) + [DigitChar(n % 10)];
      assert s[..|s| - 1] == FormatNat(n / 10);
      s
  }

  /** `n.toString()` for an integer. */
  function FormatInt(n: int): (s: string)
    ensures |s| >= 1
    ensures n >= 0 <==> IsDigit(s[0])
    ensures n < 0 <==> s[0] == '-'
  {
    if n < 0 then "-" + FormatNat(-n) else FormatNat(n)
  }

  lemma {:induction false} DigitRunToEnd(s: string, i: nat)
    requires i <= |s| && AllDigits(s[i..])
    ensures DigitRun(s, i) == |s|
    decreases |s| - i
  {
    if i < |s| {
      assert s[i] == s[i..][0];
      assert s[i + 1..] == s[i..][1..];
      DigitRunToEnd(s, i + 1);
    }
  }

  /** Parsing an unsigned digit string gives back its value. */
  lemma ParseDigits(s: string)
    requires |s| >= 1 && AllDigits(s)
    ensures ParseFloat(s) == Some(DigitsValue(s) as real)
  {
    assert !IsStrWhiteSpace(s[0]);
    assert TrimStart(s) == s;
    DigitRunToEnd(s, 0);
    assert s[0..|s|] == s;
    var l := ScanLiteral(s).value;
    assert l == Literal(false, s, "", 0);
  }

  /** Parsing what `toString` prints for an integer gives back that integer. */
  lemma ParseFormatInt(n: int)
    ensures ParseFloat(FormatInt(n)) == Some(n as real)
  {
    if n >= 0 {
      ParseDigits(FormatNat(n));
    } else {
      var s := FormatInt(n);
      var d := FormatNat(-n);
      assert s == "-" + d;
      assert TrimStart(s) == s;
      assert s[1..] == d;
      DigitRunToEnd(s, 1);
      assert s[1..|s|] == d;
      var l := ScanLiteral(s).value;
      assert l == Literal(true, d, "", 0);
    }
  }
}

=== FILE: navigation.dfy ===
/**
  The reader's previous/next buttons and progress bar (src/pages/Page.tsx):
  computed from the current chapter number and `totalChapters`, both
  JavaScript numbers (`None` is NaN).
 */
module Navigation {
  import opened Wrappers

  /** `nextId`: chapter `current + 1` when it does not pass `total`; every
      comparison with NaN is false, so NaN on either side gives no next chapter. */
  function NextChapter(current: Option<real>, total: Option<real>): (next: Option<real>)
    ensures next.Some? <==> current.Some? && total.Some? && current.value + 1.0 <= total.value
    ensures next.Some? ==> next.value == current.value + 1.0
  {
    if current.Some? && total.Some? && current.value + 1.0 <= total.value then Some(current.value + 1.0)
    else None
  }

  /** `prevId`: chapter `current - 1` when it is at least chapter 1. */
  function PrevChapter(current: Option<real>): (prev: Option<real>)
    ensures prev.Some? <==> current.Some? && current.value >= 2.0
    ensures prev.Some? ==> prev.value == current.value - 1.0
  {
    if current.Some? && current.value - 1.0 >= 1.0 then Some(current.value - 1.0) else None
  }

  /** `progressPercent = current / total * 100`; NaN operands and a zero total
      (where JavaScript yields NaN or an infinity) give `None`. */
  function ProgressPercent(current: Option<real>, total: Option<real>): (p: Option<real>)
    ensures p.Some? <==> current.Some? && total.Some? && total.value != 0.0
    ensures p.Some? ==> p.value * total.value == current.value * 100.0
  {
    if current.Some? && total.Some? && total.value != 0.0 then Some(current.value / total.value * 100.0)
    else None
  }

  /** A chapter between 0 (exclusive) and the total is shown as a share in
      (0, 100], and exactly 100 at the last chapter. */
  lemma ProgressWithinBounds(current: real, total: real)
    requires 0.0 < current <= total
    ensures ProgressPercent(Some(current), Some(total)).Some?
    ensures 0.0 < ProgressPercent(Some(current), Some(total)).value <= 100.0
    ensures ProgressPercent(Some(current), Some(total)).value == 100.0 <==> current == total
  {
    var p := ProgressPercent(Some(current), Some(total)).value;
    assert p * total == current * 100.0;
    assert p == current * 100.0 / total;
  }

  /** For a fixed positive total, progress is strictly increasing in the chapter number. */
  lemma ProgressMonotone(c1: real, c2: real, total: real)
    requires total > 0.0 && c1 < c2
    ensures ProgressPercent(Some(c1), Some(total)).value < ProgressPercent(Some(c2), Some(total)).value
  {
    var p1 := ProgressPercent(Some(c1), Some(total)).value;
    var p2 := ProgressPercent(Some(c2), Some(total)).value;
    assert p1 == c1 * 100.0 / total && p2 == c2 * 100.0 / total;
  }

  /** Chapter 1 has no previous chapter and the last chapter has no next one;
      any target offered lies in [1, total]. */
  lemma NavigationBoundaries(current: real, total: real)
    requires 1.0 <= current <= total
    ensures current == 1.0 ==> PrevChapter(Some(current)).None?
    ensures current == total ==> NextChapter(Some(current), Some(total)).None?
    ensures NextChapter(Some(current), Some(total)).Some? ==>
              current < NextChapter(Some(current), Some(total)).value <= total
    ensures PrevChapter(Some(current)).Some? ==> 1.0 <= PrevChapter(Some(current)).value < current
  {
  }
}

=== FILE: reader.dfy ===
/**
  The reader page (src/pages/Page.tsx) as a pure state machine: the two state
  hooks the chapter picker depends on, their update when the series-info
  request completes, and what one render derives from them and the route's
  chapter parameter. Chapter ids are read with a parser `parse`: the page uses
  JavaScript `parseFloat`, modelled by `JsNumber.ParseFloat`, which meets the
  one assumption the lemmas make of it (`ParseFloatReadsBackIntegers`).
 */
module Reader {
  import opened Wrappers
  import opened JsNumber
  import opened ChapterList
  import opened Navigation

  /** The `apiChapters` and `totalChapters` state of the page. */
  datatype ReaderState = ReaderState(apiChapters: seq<CatalogEntry>, totalChapters: Option<real>)

  /** State on first render: no catalog yet and `totalChapters` 0. */
  const Initial := ReaderState([], Some(0.0))

  /** How the load ended: the image request or the series-info request that
      follows it in the same `try` threw (the error is caught and logged), or
      the series info returned a body whose `chapters` field may be absent. */
  datatype InfoResponse = FetchFailed | Info(chapters: Option<seq<CatalogEntry>>)

  /** What one render shows: the chapter picker and the navigation targets. */
  datatype View = View(chapters: seq<Slot>, nextId: Option<real>, prevId: Option<real>,
                       progressPercent: Option<real>)

  /** `parseFloat` is a parser that reads back every integer `toString` prints. */
  lemma ParseFloatReadsBackIntegers()
    ensures ReadsBackIntegers(ParseFloat)
  {
    forall n: int
      ensures ParseFloat(FormatInt(n)) == Some(n as real)
    {
      ParseFormatInt(n);
    }
  }

  /** A missing or empty route parameter is falsy. */
  predicate Present(param: Option<string>) {
    param.Some? && param.value != ""
  }

  /** The state after the series-info request for the route's chapter: no
      request without both route parameters, no change when it fails, and
      otherwise the catalog (or `[]`) with its `totalChapters`. */
  function LoadCatalog(parse: Parser, s: ReaderState, mangaId: Option<string>, chapterId: Option<string>,
                       info: InfoResponse): (s': ReaderState)
    ensures !Present(mangaId) || !Present(chapterId) || info.FetchFailed? ==> s' == s
    ensures Present(mangaId) && Present(chapterId) && info.Info? ==>
              && s'.apiChapters == info.chapters.GetOr([])
              && s'.totalChapters == TotalChapters(parse, s'.apiChapters, chapterId.value)
              && (s'.totalChapters.Some? <==> parse(chapterId.value).Some?)
              && (s'.totalChapters.Some? ==>
                    && s'.totalChapters.value >= parse(chapterId.value).value
                    && forall k :: 0 <= k < |s'.apiChapters| ==>
                         NumberOrZero(parse, s'.apiChapters[k]) <= s'.totalChapters.value)
  {
    if !Present(mangaId) || !Present(chapterId) then s
    else match info
      case FetchFailed => s
      case Info(chapters) =>
        var chList := chapters.GetOr([]);
        ReaderState(chList, TotalChapters(parse, chList, chapterId.value))
  }

  /** `chapterId || "1"`. */
  function RouteChapter(chapterId: Option<string>): string {
    if Present(chapterId) then chapterId.value else "1"
  }

  /** `currentNum = parseFloat(chapterId || "1")`: the route's chapter, and
      chapter 1 when the parameter is missing or empty. */
  function CurrentNumber(parse: Parser, chapterId: Option<string>): (r: Option<real>)
    ensures Present(chapterId) ==> r == parse(chapterId.value)
    ensures !Present(chapterId) && ReadsBackIntegers(parse) ==> r == Some(1.0)
  {
    assert FormatInt(1) == "1";
    parse(RouteChapter(chapterId))
  }

  /** A JavaScript number is truthy unless it is 0 or NaN. */
  predicate Truthy(x: Option<real>) {
    x.Some? && x.value != 0.0
  }

  /** `startNum = Math.floor(totalChapters || parseFloat(chapterId || "1"))`. */
  function StartNum(parse: Parser, s: ReaderState, chapterId: Option<string>): (n: Option<int>)
    ensures Truthy(s.totalChapters) ==> n.Some? && IsFloor(n.value, s.totalChapters.value)
    ensures !Truthy(s.totalChapters) ==>
              && (n.Some? <==> CurrentNumber(parse, chapterId).Some?)
              && (n.Some? ==> IsFloor(n.value, CurrentNumber(parse, chapterId).value))
  {
    JsFloor(if Truthy(s.totalChapters) then s.totalChapters else CurrentNumber(parse, chapterId))
  }

  /** One render of the page for the route's chapter parameter. The picker
      holds the slots for chapters `|chapters|` down to 1; with a truthy total
      of at least 1 that count is its floor. Navigation targets stay within
      chapter 1 and the total. */
  function Render(parse: Parser, s: ReaderState, chapterId: Option<string>): (v: View)
    ensures forall j :: 0 <= j < |v.chapters| ==> v.chapters[j] == SlotFor(parse, s.apiChapters, |v.chapters| - j)
    ensures Truthy(s.totalChapters) && s.totalChapters.value >= 1.0 ==> IsFloor(|v.chapters|, s.totalChapters.value)
    ensures v.nextId.Some? ==> s.totalChapters.Some? && v.nextId.value <= s.totalChapters.value
    ensures v.prevId.Some? ==> v.prevId.value >= 1.0
  {
    var current := CurrentNumber(parse, chapterId);
    View(FullChapterList(parse, s.apiChapters, StartNum(parse, s, chapterId)),
         NextChapter(current, s.totalChapters),
         PrevChapter(current),
         ProgressPercent(current, s.totalChapters))
  }

  /** The render after a successful load for chapter `c`. */
  function Loaded(parse: Parser, s: ReaderState, mangaId: string, c: string, chList: seq<CatalogEntry>): View {
    Render(parse, LoadCatalog(parse, s, Some(mangaId), Some(c), Info(Some(chList))), Some(c))
  }

  /** With a total of at least 1 the loaded picker is the slot list from
      `floor(totalChapters)` down to 1. */
  lemma LoadedSlots(parse: Parser, s: ReaderState, mangaId: string, c: string,
                    chList: seq<CatalogEntry>, start: int)
    requires mangaId != "" && c != ""
    requires TotalChapters(parse, chList, c).Some?
    requires IsFloor(start, TotalChapters(parse, chList, c).value) && start >= 1
    ensures Loaded(parse, s, mangaId, c, chList).chapters == Slots(parse, chList, start)
  {
    var s' := LoadCatalog(parse, s, Some(mangaId), Some(c), Info(Some(chList)));
    assert Truthy(s'.totalChapters);
    FloorIsUnique(start, s'.totalChapters.value);
  }

  /** With a NaN total or one below 1 the loaded picker is empty: the fallback
      to the requested chapter for a zero total never yields a chapter either. */
  lemma LoadedListEmpty(parse: Parser, s: ReaderState, mangaId: string, c: string, chList: seq<CatalogEntry>)
    requires mangaId != "" && c != ""
    requires TotalChapters(parse, chList, c).None? || TotalChapters(parse, chList, c).value < 1.0
    ensures Loaded(parse, s, mangaId, c, chList).chapters == []
  {
    var s' := LoadCatalog(parse, s, Some(mangaId), Some(c), Info(Some(chList)));
    assert RouteChapter(Some(c)) == c;
    var start := StartNum(parse, s', Some(c));
    if s'.totalChapters.Some? && start.Some? {
      if Truthy(s'.totalChapters) {
        assert start.value < 1;
      } else {
        assert parse(c).value <= 0.0;
        assert start.value < 1;
      }
    }
  }

  /** Once loaded, the picker has `floor(totalChapters)` slots (none when that
      is below 1), and slot `j` stands for chapter `floor(totalChapters) - j`. */
  lemma LoadedListShape(parse: Parser, s: ReaderState, mangaId: string, c: string,
                        chList: seq<CatalogEntry>, start: int)
    requires ReadsBackIntegers(parse)
    requires mangaId != "" && c != ""
    requires TotalChapters(parse, chList, c).Some? && IsFloor(start, TotalChapters(parse, chList, c).value)
    ensures CountsDownFrom(parse, Loaded(parse, s, mangaId, c, chList).chapters, start)
  {
    if start >= 1 {
      LoadedSlots(parse, s, mangaId, c, chList, start);
      SlotsNumbers(parse, chList, start);
    } else {
      LoadedListEmpty(parse, s, mangaId, c, chList);
    }
  }

  /** The requested chapter, when it is a whole number of at least 1, is always
      in the loaded picker, even if the catalog does not list it; its slot is
      the one `SlotFor` picks (the catalog's first entry for it, if any). */
  lemma RequestedChapterListed(parse: Parser, s: ReaderState, mangaId: string, c: string,
                               chList: seq<CatalogEntry>, n: int, start: int)
    requires ReadsBackIntegers(parse)
    requires mangaId != "" && c != ""
    requires n >= 1 && parse(c) == Some(n as real)
    requires IsFloor(start, TotalChapters(parse, chList, c).value)
    ensures var list := Loaded(parse, s, mangaId, c, chList).chapters;
            && 0 <= start - n < |list|
            && list[start - n] == SlotFor(parse, chList, n)
            && SlotNumber(parse, list[start - n]) == Some(n as real)
  {
    assert n <= start;
    LoadedSlots(parse, s, mangaId, c, chList, start);
    SlotsAt(parse, chList, start);
    SlotForNumber(parse, chList, n);
  }

  /** The whole loaded view when the total is at least 1. */
  lemma LoadedView(parse: Parser, s: ReaderState, mangaId: string, c: string,
                   chList: seq<CatalogEntry>, start: int)
    requires mangaId != "" && c != ""
    requires TotalChapters(parse, chList, c).Some?
    requires IsFloor(start, TotalChapters(parse, chList, c).value) && start >= 1
    ensures var total := TotalChapters(parse, chList, c);
            Loaded(parse, s, mangaId, c, chList)
            == View(Slots(parse, chList, start), NextChapter(parse(c), total),
                    PrevChapter(parse(c)), ProgressPercent(parse(c), total))
  {
    LoadedSlots(parse, s, mangaId, c, chList, start);
    assert RouteChapter(Some(c)) == c;
  }

  /** For a whole-numbered chapter `n` within the total, the next and previous
      targets are chapters of a list counting down from `floor(total)`. */
  lemma NavigationTargetsInCountdown(parse: Parser, list: seq<Slot>, n: int, total: real, start: int)
    requires CountsDownFrom(parse, list, start)
    requires 1 <= n && n as real <= total && IsFloor(start, total)
    ensures var next := NextChapter(Some(n as real), Some(total));
            next.Some? ==> exists j :: 0 <= j < |list| && SlotNumber(parse, list[j]) == next
    ensures var prev := PrevChapter(Some(n as real));
            prev.Some? ==> exists j :: 0 <= j < |list| && SlotNumber(parse, list[j]) == prev
  {
    assert start as real <= total < start as real + 1.0;
    if (n + 1) as real <= total {
      CountdownPosition(parse, list, start, n + 1);
      assert SlotNumber(parse, list[start - (n + 1)]) == Some((n + 1) as real);
    }
    if n >= 2 {
      CountdownPosition(parse, list, start, n - 1);
      assert SlotNumber(parse, list[start - (n - 1)]) == Some((n - 1) as real);
    }
  }

  /** After a load, a whole-numbered chapter's previous and next targets are
      chapters of the picker, so navigation never leaves the list. */
  lemma LoadedNavigationTargets(parse: Parser, s: ReaderState, mangaId: string, c: string,
                                chList: seq<CatalogEntry>, n: int, start: int)
    requires ReadsBackIntegers(parse)
    requires mangaId != "" && c != ""
    requires n >= 1 && parse(c) == Some(n as real)
    requires IsFloor(start, TotalChapters(parse, chList, c).value)
    ensures var v := Loaded(parse, s, mangaId, c, chList);
            && (v.nextId.Some? ==> exists j :: 0 <= j < |v.chapters| && SlotNumber(parse, v.chapters[j]) == v.nextId)
            && (v.prevId.Some? ==> exists j :: 0 <= j < |v.chapters| && SlotNumber(parse, v.chapters[j]) == v.prevId)
  {
    var total := TotalChapters(parse, chList, c);
    assert n <= start;
    LoadedView(parse, s, mangaId, c, chList, start);
    SlotsNumbers(parse, chList, start);
    NavigationTargetsInCountdown(parse, Slots(parse, chList, start), n, total.value, start);
  }

  /** After a load, a chapter numbered above 0 shows a progress share in (0, 100]. */
  lemma LoadedProgress(parse: Parser, s: ReaderState, mangaId: string, c: string, chList: seq<CatalogEntry>)
    requires mangaId != "" && c != ""
    requires parse(c).Some? && parse(c).value > 0.0
    ensures var p := Loaded(parse, s, mangaId, c, chList).progressPercent;
            p.Some? && 0.0 < p.value <= 100.0
  {
    var t := TotalChapters(parse, chList, c).value;
    assert RouteChapter(Some(c)) == c;
    ProgressWithinBounds(parse(c).value, t);
  }

  /** Before the catalog arrives, the picker already shows chapters
      `floor(parseFloat(chapterId || "1"))` down to 1, all as missing placeholders. */
  lemma InitialRenderAllMissing(parse: Parser, chapterId: Option<string>)
    ensures var list := Render(parse, Initial, chapterId).chapters;
            && (CurrentNumber(parse, chapterId).Some? && CurrentNumber(parse, chapterId).value >= 1.0 ==>
                  IsFloor(|list|, CurrentNumber(parse, chapterId).value))
            && forall j :: 0 <= j < |list| ==> list[j].IsMissing()
  {
    var start := StartNum(parse, Initial, chapterId);
    if start.Some? {
      EmptyCatalogAllMissing(parse, start.value);
    }
  }
}

=== FILE: reader_examples.dfy ===
/**
  Two worked reader scenarios with the page's own `parseFloat`: a sparse
  catalog with a requested chapter beyond it, and an empty catalog.
 */
module ReaderExamples {
  import opened Wrappers
  import opened JsNumber
  import opened ChapterList
  import opened Navigation
  import opened Reader

  /** The ids `"1"` to `"5"` are what `toString` prints for 1 to 5. */
  lemma SmallIds()
    ensures FormatInt(1) == "1" && FormatInt(2) == "2" && FormatInt(3) == "3"
    ensures FormatInt(4) == "4" && FormatInt(5) == "5"
  {
  }

  /** The slots for chapters 5 down to 1 over the catalog [3, 1]. */
  lemma SparseSlots(parse: Parser, e3: CatalogEntry, e1: CatalogEntry)
    requires ReadsBackIntegers(parse)
    requires e3.chapterId == "3" && e1.chapterId == "1"
    ensures Slots(parse, [e3, e1], 5)
            == [Placeholder("5"), Placeholder("4"), Listed(e3), Placeholder("2"), Listed(e1)]
  {
    var chList := [e3, e1];
    SmallIds();
    assert parse("1") == Some(1.0) && parse("2") == Some(2.0) && parse("3") == Some(3.0);
    assert parse("4") == Some(4.0) && parse("5") == Some(5.0);
    assert SlotFor(parse, chList, 5) == Placeholder("5");
    assert SlotFor(parse, chList, 4) == Placeholder("4");
    assert SlotFor(parse, chList, 3) == Listed(e3);
    assert SlotFor(parse, chList, 2) == Placeholder("2");
    assert chList[1..] == [e1];
    assert FirstWithNumber(parse, chList[1..], 1.0) == Some(0);
    assert SlotFor(parse, chList, 1) == Listed(e1);
    SlotsAt(parse, chList, 5);
  }

  /** The sparse-catalog scenario for any parser that reads back integers. */
  lemma SparseCatalogWith(parse: Parser, s: ReaderState, e3: CatalogEntry, e1: CatalogEntry)
    requires ReadsBackIntegers(parse)
    requires e3.chapterId == "3" && e1.chapterId == "1"
    ensures var v := Loaded(parse, s, "m", "5", [e3, e1]);
            && v.chapters == [Placeholder("5"), Placeholder("4"), Listed(e3), Placeholder("2"), Listed(e1)]
            && v.nextId.None?
            && v.prevId == Some(4.0)
            && v.progressPercent == Some(100.0)
  {
    var chList := [e3, e1];
    SmallIds();
    assert parse("3") == Some(3.0) && parse("1") == Some(1.0) && parse("5") == Some(5.0);
    assert TotalChapters(parse, chList, "5") == Some(5.0);
    LoadedView(parse, s, "m", "5", chList, 5);
    SparseSlots(parse, e3, e1);
  }

  /** Catalog chapters 3 and 1, chapter 5 requested: the total is 5, the picker
      runs 5 to 1 with chapters 5, 4 and 2 missing, there is no next chapter,
      the previous one is 4 and progress is 100. */
  lemma SparseCatalogScenario(s: ReaderState, e3: CatalogEntry, e1: CatalogEntry)
    requires e3.chapterId == "3" && e1.chapterId == "1"
    ensures var v := Loaded(ParseFloat, s, "m", "5", [e3, e1]);
            && v.chapters == [Placeholder("5"), Placeholder("4"), Listed(e3), Placeholder("2"), Listed(e1)]
            && v.nextId.None?
            && v.prevId == Some(4.0)
            && v.progressPercent == Some(100.0)
  {
    ParseFloatReadsBackIntegers();
    SparseCatalogWith(ParseFloat, s, e3, e1);
  }

  /** An empty catalog with chapter 1 requested: one missing slot, no next or
      previous chapter, and progress 100. */
  lemma EmptyCatalogScenario(s: ReaderState)
    ensures var v := Loaded(ParseFloat, s, "m", "1", []);
            && v.chapters == [Placeholder("1")]
            && v.nextId.None? && v.prevId.None?
            && v.progressPercent == Some(100.0)
  {
    SmallIds();
    ParseFormatInt(1);
    assert TotalChapters(ParseFloat, [], "1") == Some(1.0);
    LoadedView(ParseFloat, s, "m", "1", [], 1);
    SlotsAt(ParseFloat, [], 1);
  }
}

=== FILE: wrappers.dfy ===
/** Optional values, used for JavaScript's `null`/`undefined` results and for NaN. */
module Wrappers {

  datatype Option<+T> = None | Some(value: T) {

    /** The wrapped value, or `default` when there is none. */
    function GetOr(default: T): T {
      match this
      case Some(v) => v
      case None => default
    }
  }
}
